=== FILE: README.md ===
# songs_meaning_extractor, modelled in Dafny

The program scrapes songmeanings.com. For a band it lists the links to the
band's song pages. It keeps the slice `items[:number_of_songs]`, and for each
song it writes the song name and the highest-rated comment to
`<band_name>_output.txt`. This project models the pure logic that sits between
the network fetches and the HTML parser:

- `SongLinks` (`song_links.dfy`): the song-link enumeration of
  `_get_band_songs_list`. Anchors are visited in document order. Hrefs that
  contain `/songs/view/` are kept. They go into an insertion-ordered dictionary
  where the first title seen for an href wins. It is modelled both as a fold
  (`CollectSongLinks`) and as the loop itself (`BandSongsList`).
- `Records` (`records.dfy`): `items[:number_of_songs]` with Python slice
  semantics, and the three-line block written per song (name, comment, thirty
  dashes). It comes with a reader that parses the written text back into
  records.
- `Comment` (`comment.dfy`): the comment pipeline of `_extract_highest_comment`.
  The steps are:
  - serialise the first `div.text` (a missing one becomes `"None"`);
  - cut at the regular-expression match `.*<div class="sign">`;
  - take the text of what is left;
  - remove every "General Comment";
  - `lstrip()`;
  - replace `"None"` with the no-comments sentinel.
- `Extractor` (`extractor.dfy`): the per-song write loop of `extract`, the
  whole `extract` run, and the output file name built in `main`.
- `Strings` (`strings.dfy`): the Python string operations the program relies
  on: substring search, `str.split`/`str.join`, `str.replace` as a
  left-to-right scan, `str.isspace` and `str.lstrip`.
- `Wrappers` (`wrappers.dfy`): `Option` and `Result`.

Inputs from the outside world are parameters:
- the anchors of the band page are a sequence of `Anchor(href, title)`;
- fetching a song page (URL joining plus the request) is `pageOf: string -> SongPage`;
- BeautifulSoup's markup-to-text step is `textOf: string -> string`.

The modelled part of the program raises in two places. A link without a
`title` attribute raises at line 83, because `.replace` is called on `None`. A song page without a
`ul.comments-list` raises at line 103, because `.find` is called on `None`.
Both are modelled as a `Crash` that ends the run. The file is opened in append
mode, so the blocks already written stay in it: the `written` part of a `Run`.

Behaviour a reader may not expect from the program, which the model follows:
- every " lyrics" in a title is removed, not only a trailing one
  (`Extractor.SongNameRemovesEveryLyrics`);
- every "General Comment" in the text is removed, not only a leading one
  (`Comment.CleanComment`);
- the signature cut falls at the start of the line that holds the first
  `<div class="sign">`, because the pattern's `.*` does not cross a line feed.
  The cut is not at the marker itself. A comment on the same line as its
  signature is cut away entirely (`Comment.OneLineCommentIsCutEntirely`);
- the cleaned comment can be empty (`Comment.LabelOnlyCleansToEmpty`). It only
  becomes the sentinel when it is exactly `"None"`;
- a link without a title crashes the run; it is not given an empty title;
- the output is three lines per song only when names and comments are
  single-line. `Records.ParseRender` states the round trip under that condition.

## Model

| member | source | states |
|---|---|---|
| Strings.Find | songs_meaning_extractor.py:104 | the first occurrence of the signature marker: none exactly when there is no occurrence, otherwise an occurrence with none before it |
| Strings.SplitAtFirstOccurrence | songs_meaning_extractor.py:108 | `str.split` cuts at the first occurrence of the separator and continues after it; without one the string is its only piece |
| Strings.JoinSplit | songs_meaning_extractor.py:108 | joining the pieces of a split with the separator gives back the original string |
| Strings.SplitPartsFree | songs_meaning_extractor.py:108 | no piece of a split contains the separator |
| Strings.ReplaceAll | songs_meaning_extractor.py:83 | `str.replace` as a left-to-right scan; `Strings.ReplaceIsJoinSplit` states that it replaces every non-overlapping occurrence, `Strings.ReplaceAbsent` that it leaves a string without the pattern unchanged |
| Strings.ReplaceIsJoinSplit | songs_meaning_extractor.py:108 | `s.replace(pat, rep)` equals `rep.join(s.split(pat))`: every non-overlapping occurrence, left to right, is replaced |
| Strings.ReplaceAbsent | songs_meaning_extractor.py:108 | replacing a pattern that does not occur leaves the string unchanged |
| Strings.ReplaceCharPointwise | songs_meaning_extractor.py:125 | replacing one character by another keeps the length and maps each position independently |
| Strings.ReplaceCharConcat | songs_meaning_extractor.py:125 | a one-character replace distributes over concatenation |
| Strings.RemoveAppendedPattern | songs_meaning_extractor.py:83 | removing a pattern (whose first character does not recur in it) from `base + pat`, where `base` lacks it, gives `base` |
| Strings.LStrip | songs_meaning_extractor.py:108 | `lstrip()` returns a suffix, everything dropped is whitespace, and the result does not start with whitespace |
| Strings.LStripUnique | songs_meaning_extractor.py:108 | whitespace followed by text that does not start with whitespace strips to exactly that text |
| Strings.LStripIdempotent | songs_meaning_extractor.py:108 | stripping twice is stripping once |
| Strings.LStripIsStripsTo | songs_meaning_extractor.py:108 | for every string, `lstrip()` is the one suffix that drops only leading whitespace and does not start with whitespace |
| SongLinks.IsSongHref | songs_meaning_extractor.py:59 | the filter `'/songs/view/' in url`; `SongLinks.EmptyIffNoSongAnchors` and `SongLinks.CollectSongLinks` state that exactly the hrefs passing it become keys |
| SongLinks.Visit | songs_meaning_extractor.py:58-63 | one loop iteration; `SongLinks.VisitKeepsFirsts`, `SongLinks.VisitAppends` and `SongLinks.VisitKeepsAll` state what it preserves and adds |
| SongLinks.FirstIndexOf | songs_meaning_extractor.py:61-63 | the first anchor with a given href, or the end when there is none |
| SongLinks.VisitKeepsFirsts | songs_meaning_extractor.py:56-63 | one loop iteration keeps every key a song href, each key's title the title of its first anchor, and the keys in first-seen order |
| SongLinks.VisitAppends | songs_meaning_extractor.py:61-63 | a new key is first seen at the anchor being visited, after every existing key, and carries that anchor's title |
| SongLinks.VisitKeepsAll | songs_meaning_extractor.py:56-63 | after one loop iteration every song href seen so far, including the visited one, is a key |
| SongLinks.CollectSongLinks | songs_meaning_extractor.py:54-65 | the dictionary holds exactly the hrefs containing `/songs/view/`, in order of first occurrence, each with the title of its first anchor |
| SongLinks.BandSongsList | songs_meaning_extractor.py:54-65 | the loop with its membership test builds the same dictionary as the fold |
| SongLinks.UrlsDistinct | songs_meaning_extractor.py:61-63 | keys are pairwise distinct |
| SongLinks.EmptyIffNoSongAnchors | songs_meaning_extractor.py:54-65 | the dictionary is empty exactly when no anchor's href contains the song path |
| SongLinks.LaterDuplicateIgnored | songs_meaning_extractor.py:61-63 | an anchor whose href already occurred changes nothing |
| SongLinks.DuplicateKeepsFirstTitle | songs_meaning_extractor.py:61-63 | of two anchors to the same song with different titles, the first title is kept |
| Records.TakeLimit | songs_meaning_extractor.py:76 | `items[:n]` is a prefix; `None` keeps all; `n >= 0` keeps `min(n, len)`; `n < 0` keeps `max(0, len + n)` |
| Records.LimitBeyondLength | songs_meaning_extractor.py:76 | a limit at or past the length keeps every entry without error |
| Records.LimitTwice | songs_meaning_extractor.py:76 | two non-negative limits in a row act as the smaller one |
| Records.NegativeLimitDropsTail | songs_meaning_extractor.py:76 | a limit of `-k` drops exactly the last `k` entries |
| Records.Block | songs_meaning_extractor.py:87-89 | the three lines written for one song; `Records.ParseBlock` states that they read back as name, comment and separator |
| Records.Render | songs_meaning_extractor.py:79-89 | everything appended for a run of songs; `Records.RenderConcat` and `Records.ParseRender` state how it composes and reads back |
| Records.Repeat | songs_meaning_extractor.py:89 | `"-" * 30` has thirty characters, all dashes |
| Records.RenderConcat | songs_meaning_extractor.py:79-89 | the text for two runs of songs is the text of the first followed by the text of the second |
| Records.ReadLine | songs_meaning_extractor.py:87-89 | reading a line splits at the first line feed and fails exactly when there is none |
| Records.ReadLineOf | songs_meaning_extractor.py:87-89 | a line without line feeds, written with its line feed, reads back exactly |
| Records.ParseBlock | songs_meaning_extractor.py:87-89 | one written block reads back as name, comment and separator, in front of whatever follows |
| Records.SingleLineTail | songs_meaning_extractor.py:87-88 | the first record and the rest of a single-line sequence are single-line |
| Records.ParseRender | songs_meaning_extractor.py:79-89 | with single-line names and comments, the written text reads back as exactly one three-line block per song, in order |
| Comment.SignMatchStart | songs_meaning_extractor.py:104 | where the signature match starts; `Comment.SignMatchStartIsSearch` states that it agrees with `re.search` on every string |
| Comment.LineStart | songs_meaning_extractor.py:104 | the start of the line holding a position: after the last line feed before it, or 0 |
| Comment.SignMatchStartIsSearch | songs_meaning_extractor.py:104-105 | the computed cut position is what `re.search(r'.*<div class="sign">')` gives: no match anywhere, or the least position where the pattern matches |
| Comment.TruncateAtSign | songs_meaning_extractor.py:104-106 | the cut keeps a prefix with no marker in it, keeps everything when there is no marker, and otherwise ends with a line feed or is empty |
| Comment.TruncateKeepsLongestCleanLines | songs_meaning_extractor.py:104-106 | every longer prefix that ends with a line feed already holds the marker |
| Comment.OneLineCommentIsCutEntirely | songs_meaning_extractor.py:104-106 | when no line feed precedes the marker, nothing of the comment is kept |
| Comment.CleanComment | songs_meaning_extractor.py:108-110 | the cleaned comment is never `"None"` and does not start with whitespace |
| Comment.CleanCommentRemovesEveryLabel | songs_meaning_extractor.py:108-110 | for every text, the result is what the label-free pieces of the text, joined back together, `lstrip` to; it is the sentinel exactly when they strip to `"None"` |
| Comment.LabelAfterTextIsRemoved | songs_meaning_extractor.py:108 | a label after other text is removed too: `"a General Comment"` cleans to `"a "` |
| Comment.CleanLeavesCleanText | songs_meaning_extractor.py:108-110 | text with no label, no leading whitespace and other than `"None"` passes unchanged |
| Comment.SentinelIsClean | songs_meaning_extractor.py:109-110 | the sentinel is not `"None"` and does not start with whitespace |
| Comment.NoneBecomesSentinel | songs_meaning_extractor.py:109-110 | the text `"None"` becomes "There are no comments for this song." |
| Comment.LabelNotInWhitespace | songs_meaning_extractor.py:108 | leading whitespace cannot complete a "General Comment" label |
| Comment.CleanLabelledComment | songs_meaning_extractor.py:108 | the label, then whitespace, then the comment cleans to exactly the comment |
| Comment.LabelOnlyCleansToEmpty | songs_meaning_extractor.py:108-110 | a text that is only the label cleans to the empty string, not to the sentinel |
| Comment.Serialise | songs_meaning_extractor.py:103 | `str()` of the `find` result; `Comment.MissingTextGivesSentinel` states that a missing text div ends as the sentinel |
| Comment.HighestComment | songs_meaning_extractor.py:100-111 | fails exactly when the page has no comments list; otherwise a comment that is not `"None"` and has no leading whitespace |
| Comment.MissingTextGivesSentinel | songs_meaning_extractor.py:103-110 | a comments list without a text div yields the sentinel |
| Extractor.SongName | songs_meaning_extractor.py:83 | `title.replace(" lyrics", "")`; `Extractor.SongNameRemovesEveryLyrics` states that every " lyrics" is removed, `Extractor.InnerLyricsIsRemoved` shows one inside a title, and `Extractor.SongNameOfPlainTitle` and `Extractor.SongNameStripsSuffix` give the plain and trailing cases |
| Extractor.SongNameRemovesEveryLyrics | songs_meaning_extractor.py:83 | for every title, the song name is the pieces of the title between its " lyrics" occurrences, put back together: every occurrence is removed, wherever it stands |
| Extractor.InnerLyricsIsRemoved | songs_meaning_extractor.py:83 | a " lyrics" inside a title is removed too: `"a lyrics b"` names the song `"a b"` |
| Extractor.SongNameOfPlainTitle | songs_meaning_extractor.py:83 | a title without " lyrics" is the song name unchanged |
| Extractor.SongNameStripsSuffix | songs_meaning_extractor.py:83 | a name followed by " lyrics" gives back the name |
| Extractor.RecordOf | songs_meaning_extractor.py:80-86 | one link's record or crash; `Extractor.RecordOfOutcome` states which crash each input gives and the comment a record carries |
| Extractor.RecordOfOutcome | songs_meaning_extractor.py:80-86 | a link without a title crashes with `TitleMissing`; a titled link whose page has no comments list crashes with `NoCommentsList`; otherwise the link gets a record whose comment is the page's highest comment |
| Extractor.WriteSongs | songs_meaning_extractor.py:79-89 | the write loop as a fold; `Extractor.WriteSongsWritesPrefix` and `Extractor.WriteSongsLoop` state what it writes and where it stops |
| Extractor.FirstFailure | songs_meaning_extractor.py:79-86 | the number of leading links that produce a record before the first that raises |
| Extractor.RecordsOf | songs_meaning_extractor.py:80-86 | one record per link, in link order |
| Extractor.WriteSongsWritesPrefix | songs_meaning_extractor.py:78-89 | a run appends exactly the blocks of the links before the first crash, and ends with that link's crash or with none when every link succeeds |
| Extractor.WriteSongsFrom | songs_meaning_extractor.py:79-89 | one step of the loop: the link at the position crashes or appends its block |
| Extractor.WriteSongsLoop | songs_meaning_extractor.py:79-89 | the `for` loop, stopping at the first exception, leaves the same text and crash as the recursive run |
| Extractor.RecorderNamesAfterTitles | songs_meaning_extractor.py:80-86 | a link's record, when it has one, is named after the link's title with " lyrics" removed; a link without a title has none |
| Extractor.RecorderTakesHighestComments | songs_meaning_extractor.py:80-86 | for every link, a record is produced exactly when the link has a title and its page has a comments list, and the record carries that page's highest comment |
| Extractor.RunTakesHighestComments | songs_meaning_extractor.py:78-89 | every song written carries its page's highest comment, and a run completes exactly when every link has a title and a page with a comments list |
| Extractor.RunOfItems | songs_meaning_extractor.py:78-89 | for any links, the text written is the blocks of the records before the first crash, each named after its link's title; the run crashes exactly when fewer records than links are written, with the crash of the first link not written; a completed single-line run reads back as those records |
| Extractor.WriteSelected | songs_meaning_extractor.py:76-89 | after `items[:n]`, no more records are written than links found, nor more than `n` when `n` is not negative; the run crashes exactly when it stops short of the selected links, with the first unwritten link's crash; a completed run writes `min(n, len)` records for `n >= 0`, `max(0, len + n)` for `n < 0`, and all links without a limit |
| Extractor.Extract | songs_meaning_extractor.py:73-89 | the whole `extract` run; `Extractor.ExtractWritesSelectedSongsInOrder` states what it writes |
| Extractor.ExtractWritesSelectedSongsInOrder | songs_meaning_extractor.py:73-89 | `extract` writes the blocks of the first links found, in order, at most the limit and at most the number of distinct song links, named after their titles and carrying each page's highest comment; it completes exactly when every selected link has a title and a page with a comments list, and crashes exactly when it stops short of the selected links, with the crash of the first unwritten one; a completed run writes exactly as many songs as `items[:n]` selects, for a negative limit too; a completed run with single-line fields reads back as those records |
| Extractor.BandName | songs_meaning_extractor.py:123 | `' '.join(args.band)`; `Extractor.OutputFileNameOfWords` and `Extractor.UnderscoreJoin` state the file name it leads to |
| Extractor.OutputFileName | songs_meaning_extractor.py:125 | the file name is the band name with each space turned into `_`, then `_output.txt`; it holds no space |
| Extractor.OutputFileNameOfWords | songs_meaning_extractor.py:123-125 | for words without spaces, the file name is the words joined by `_`, then `_output.txt` |
| Extractor.UnderscoreJoin | songs_meaning_extractor.py:123-125 | turning spaces into `_` in the space-joined words gives the `_`-joined words |
| Extractor.NoSpaceUnchanged | songs_meaning_extractor.py:125 | a word without spaces is unchanged by the space replacement |

## Left out

- The HTTP requests (lines 41, 51, 100) are network I/O. A song page arrives through the `pageOf` parameter.
- `pageOf` is total, so a request that raises at line 100 (a connection error, say) is not among the modelled crashes. In the program it would end the run the same way, keeping the blocks already written.
- BeautifulSoup parsing (lines 42-43, 53, 56, 101-103) and `.text` (line 107) are a foreign library. The anchors are the input, a page is a `SongPage`, and markup-to-text is the `textOf` parameter.
- `urllib.parse.urljoin` (lines 50, 85) is a foreign call. It is folded into `pageOf`.
- The band-page resolver (lines 36-51) is left out. It is network requests plus parser lookups, with a truthiness test on the href at line 49.
- The resolver's crash is left out with it. When no anchor's text equals the band name, `find` returns `None` and indexing it with `['href']` raises at line 43. This ends the run before the output file is opened at line 78, so nothing is written. The model starts from the anchors of a band page that was found.
- Command-line parsing, `str.title()` and `str.lower()` (lines 37, 115-126) are left out. They are CLI plumbing and Unicode case mapping. The band name is modelled from the word list on, and the limit as an `Option<int>`.
- The file open, its UTF-8 encoding and the append (line 78) are I/O. The model returns the text that would be appended.
- Strings.ReplaceAll requires a non-empty pattern. Python's replace with an empty pattern (which inserts between characters) is not modelled, because the program never uses one.
- Records.ParseRender: the three-lines-per-song reading holds only for single-line names and comments. A line feed inside a comment makes the block longer.
- Comment.HighestComment: its contract says nothing about the text returned by `textOf`, because markup-to-text is not modelled.

=== FILE: comment.dfy ===
/**
 Cleaning of the highest-rated comment (songs_meaning_extractor.py, lines 100-111).
 The serialised first `div.text` of `ul.comments-list` is cut at the signature
 marker by the regular expression `.*<div class="sign">`, reduced to its text,
 stripped of every "General Comment", left-stripped, and "None" becomes the
 no-comments sentinel. Turning markup into text is BeautifulSoup's job; it is a
 function parameter here.
 */
module Comment {
  import opened Wrappers
  import opened Strings

  /** The opening tag of the signature block that follows the comment text. */
  const SignMarker: string := "<div class=\"sign\">"

  /** The label every comment carries in its text. */
  const GeneralCommentLabel: string := "General Comment"

  /** What is written when the page has no comment text. */
  const NoComments: string := "There are no comments for this song."

  /** The start of the line that holds position `q`: just after the last line feed before `q`, or 0. */
  function LineStart(s: string, q: nat): (l: nat)
    requires q <= |s|
    ensures l <= q
    ensures l == 0 || s[l - 1] == '\n'
    ensures forall k :: l <= k < q ==> s[k] != '\n'
    decreases q
  {
    if q == 0 || s[q - 1] == '\n' then q else LineStart(s, q - 1)
  }

  /**
   `re.search(r'.*<div class="sign">', s).start()`, or `None` when there is no
   match. Without the DOTALL flag `.` stops at a line feed, so the match starts
   at the beginning of the line holding the first marker.
   */
  function SignMatchStart(s: string): Option<nat>
  {
    match Find(s, SignMarker)
    case None => None
    case Some(q) => Some(LineStart(s, q))
  }

  /**
   Reference semantics of the pattern: `.*<div class="sign">` matches starting
   at `p` when the marker occurs at some `q >= p` and no line feed lies between.
   */
  ghost predicate PatternMatchesAt(s: string, p: nat)
  {
    exists q: nat :: p <= q && OccursAt(s, SignMarker, q) && forall k :: p <= k < q ==> s[k] != '\n'
  }

  /**
   `SignMatchStart` is what `re.search` returns: no match at any start position,
   or the least start position at which the pattern matches.
   */
  lemma {:induction false} SignMatchStartIsSearch(s: string)
    ensures SignMatchStart(s).None? <==> forall p: nat :: p <= |s| ==> !PatternMatchesAt(s, p)
    ensures SignMatchStart(s).Some? ==>
              var l := SignMatchStart(s).value;
              l <= |s| && PatternMatchesAt(s, l) && forall p: nat :: p < l ==> !PatternMatchesAt(s, p)
  {
    match Find(s, SignMarker)
    case None =>
      forall p: nat | p <= |s|
        ensures !PatternMatchesAt(s, p)
      {
      }
    case Some(q) =>
      var l := LineStart(s, q);
      assert PatternMatchesAt(s, l);
      forall p: nat | p < l
        ensures !PatternMatchesAt(s, p)
      {
        forall q': nat | p <= q' && OccursAt(s, SignMarker, q')
          ensures p <= l - 1 < q' && s[l - 1] == '\n'
        {
          assert q <= q';
        }
      }
  }

  /** The marker has no line feed in it. */
  lemma {:induction false} MarkerIsOneLine()
    ensures forall k :: 0 <= k < |SignMarker| ==> SignMarker[k] != '\n'
  {
  }

  /**
   Lines 104-106: the serialised comment cut before the line holding the first
   signature marker, or left alone when there is no marker.
   */
  function TruncateAtSign(s: string): (r: string)
    ensures r <= s
    ensures !Contains(r, SignMarker)
    ensures !Contains(s, SignMarker) ==> r == s
    ensures Contains(s, SignMarker) ==> |r| == 0 || r[|r| - 1] == '\n'
  {
    match SignMatchStart(s)
    case None => s
    case Some(l) =>
      var q := Find(s, SignMarker).value;
      assert !Contains(s[..l], SignMarker) by {
        forall j: nat | j <= l
          ensures !OccursAt(s[..l], SignMarker, j)
        {
          if j + |SignMarker| <= l {
            assert s[..l][j..j + |SignMarker|] == s[j..j + |SignMarker|];
            assert !OccursAt(s, SignMarker, j);
          }
        }
      }
      s[..l]
  }

  /**
   The cut keeps whole lines only, and as many as it can: every longer prefix
   of `s` that ends with a line feed already contains the marker.
   */
  lemma {:induction false} TruncateKeepsLongestCleanLines(s: string)
    requires Contains(s, SignMarker)
    ensures var r := TruncateAtSign(s);
            forall n :: |r| < n <= |s| && s[n - 1] == '\n' ==> Contains(s[..n], SignMarker)
  {
    var r := TruncateAtSign(s);
    var q := Find(s, SignMarker).value;
    MarkerIsOneLine();
    forall n | |r| < n <= |s| && s[n - 1] == '\n'
      ensures Contains(s[..n], SignMarker)
    {
      forall k | q <= k < q + |SignMarker|
        ensures s[k] != '\n'
      {
        assert s[k] == s[q..q + |SignMarker|][k - q];
      }
      assert n - 1 >= q + |SignMarker|;
      assert s[..n][q..q + |SignMarker|] == s[q..q + |SignMarker|];
      assert OccursAt(s[..n], SignMarker, q);
    }
  }

  /**
   A comment and its signature on one line are cut away together: when no line
   feed precedes the marker, the cut keeps nothing of the comment.
   */
  lemma {:induction false} OneLineCommentIsCutEntirely(before: string, after: string)
    requires '\n' !in before
    ensures TruncateAtSign(before + SignMarker + after) == ""
  {
    var s := before + SignMarker + after;
    assert s[|before|..|before| + |SignMarker|] == SignMarker;
    assert OccursAt(s, SignMarker, |before|);
    var q := Find(s, SignMarker).value;
    assert q <= |before|;
    assert forall k :: 0 <= k < |before| ==> s[k] == before[k];
  }

  /** Lines 108-110: remove every "General Comment", strip leading whitespace, and turn "None" into the sentinel. */
  function CleanComment(text: string): (r: string)
    ensures r != "None"
    ensures |r| > 0 ==> !IsSpace(r[0])
  {
    SentinelIsClean();
    var t := LStrip(ReplaceAll(text, GeneralCommentLabel, ""));
    if t == "None" then NoComments else t
  }

  /** The sentinel is not "None" and does not start with whitespace. */
  lemma {:induction false} SentinelIsClean()
    ensures NoComments != "None"
    ensures |NoComments| > 0 && !IsSpace(NoComments[0])
  {
    assert NoComments[0] == 'T';
    assert |NoComments| != |"None"|;
  }

  /**
   Cleaning removes every occurrence of the label, wherever it stands, and then
   strips leading whitespace: the result is what the label-free pieces of the
   text, put back together, strip to; or the sentinel, exactly when they strip
   to "None".
   */
  lemma {:induction false} CleanCommentRemovesEveryLabel(text: string)
    ensures var pieces := Join("", Split(text, GeneralCommentLabel));
            var r := CleanComment(text);
            || (StripsTo(pieces, "None") && r == NoComments)
            || (StripsTo(pieces, r) && r != "None")
  {
    var pieces := Join("", Split(text, GeneralCommentLabel));
    ReplaceIsJoinSplit(text, GeneralCommentLabel, "");
    var t := LStrip(pieces);
    LStripIsStripsTo(pieces, t);
  }

  /** A label in the middle of a comment is removed too, not only a leading one. */
  lemma {:induction false} LabelAfterTextIsRemoved()
    ensures CleanComment("a General Comment") == "a "
  {
    assert "a General Comment" == "a " + GeneralCommentLabel;
    assert !Contains("a ", GeneralCommentLabel);
    RemoveAppendedPattern("a ", GeneralCommentLabel);
    assert LStrip("a ") == "a " by {
      assert !IsSpace('a');
    }
  }

  /** Text that is already clean (no label, no leading whitespace, not "None") passes unchanged. */
  lemma {:induction false} CleanLeavesCleanText(text: string)
    requires !Contains(text, GeneralCommentLabel)
    requires |text| > 0 ==> !IsSpace(text[0])
    requires text != "None"
    ensures CleanComment(text) == text
  {
    ReplaceAbsent(text, GeneralCommentLabel, "");
    LStripUnique("", text);
    assert "" + text == text;
  }

  /** The text a missing comment serialises to becomes the sentinel. */
  lemma {:induction false} NoneBecomesSentinel()
    ensures CleanComment("None") == NoComments
  {
    assert !Contains("None", GeneralCommentLabel) by {
      assert |"None"| < |GeneralCommentLabel|;
    }
    ReplaceAbsent("None", GeneralCommentLabel, "");
    assert LStrip("None") == "None" by {
      assert !IsSpace('N');
    }
  }

  /** A whitespace-only string followed by `b` contains the label only if `b` does. */
  lemma {:induction false} LabelNotInWhitespace(ws: string, b: string)
    requires forall i :: 0 <= i < |ws| ==> IsSpace(ws[i])
    requires !Contains(b, GeneralCommentLabel)
    ensures !Contains(ws + b, GeneralCommentLabel)
  {
    var s := ws + b;
    var n := |GeneralCommentLabel|;
    forall j: nat | j <= |s|
      ensures !OccursAt(s, GeneralCommentLabel, j)
    {
      if j < |ws| {
        assert s[j] == ws[j];
        if j + n <= |s| {
          assert s[j..j + n][0] == s[j];
        }
      } else if j + n <= |s| {
        assert s[j..j + n] == b[j - |ws|..j - |ws| + n];
        assert !OccursAt(b, GeneralCommentLabel, j - |ws|);
      }
    }
  }

  /**
   The usual shape of a comment's text: the label, some whitespace, then the
   comment. Cleaning yields exactly the comment.
   */
  lemma {:induction false} CleanLabelledComment(ws: string, body: string)
    requires forall i :: 0 <= i < |ws| ==> IsSpace(ws[i])
    requires |body| > 0 ==> !IsSpace(body[0])
    requires !Contains(body, GeneralCommentLabel)
    requires body != "None"
    ensures CleanComment(GeneralCommentLabel + ws + body) == body
  {
    var s := GeneralCommentLabel + ws + body;
    assert GeneralCommentLabel <= s;
    assert s[|GeneralCommentLabel|..] == ws + body;
    LabelNotInWhitespace(ws, body);
    ReplaceAbsent(ws + body, GeneralCommentLabel, "");
    assert ReplaceAll(s, GeneralCommentLabel, "") == ws + body;
    LStripUnique(ws, body);
  }

  /** A comment whose text is only the label cleans to the empty string, not to the sentinel. */
  lemma {:induction false} LabelOnlyCleansToEmpty()
    ensures CleanComment(GeneralCommentLabel) == ""
  {
    var s := GeneralCommentLabel;
    assert GeneralCommentLabel <= s;
    assert s[|GeneralCommentLabel|..] == "";
  }

  /** The first `div.text` of the comments list, serialised, if there is one. */
  datatype CommentsList = CommentsList(firstText: Option<string>)

  /** The part of a song page the extractor reads: its `ul.comments-list`, if there is one. */
  datatype SongPage = SongPage(commentsList: Option<CommentsList>)

  /** The page has no comments list; `.find` is then called on `None` and raises. */
  datatype ExtractionFailure = CommentsListMissing

  /** Python's `str()` of the `find` result: the element's markup, or "None" when nothing was found. */
  function Serialise(div: Option<string>): string
  {
    match div
    case None => "None"
    case Some(markup) => markup
  }

  /**
   `_extract_highest_comment` on a fetched page; `textOf` is the markup-to-text
   step (`BeautifulSoup(...).text`).
   */
  function HighestComment(page: SongPage, textOf: string -> string): (r: Result<string, ExtractionFailure>)
    ensures r.Failure? <==> page.commentsList.None?
    ensures r.Success? ==> r.value != "None" && (|r.value| > 0 ==> !IsSpace(r.value[0]))
  {
    match page.commentsList
    case None => Failure(CommentsListMissing)
    case Some(list) =>
      var markup := TruncateAtSign(Serialise(list.firstText));
      Success(CleanComment(textOf(markup)))
  }

  /**
   A comments list without a text div gives the sentinel, provided the text of
   the plain word "None" is that word, as it is for an HTML parser.
   */
  lemma {:induction false} MissingTextGivesSentinel(textOf: string -> string)
    requires textOf("None") == "None"
    ensures HighestComment(SongPage(Some(CommentsList(None))), textOf) == Success(NoComments)
  {
    assert !Contains("None", SignMarker);
    NoneBecomesSentinel();
  }
}

=== FILE: extractor.dfy ===
/**
 The extraction run (songs_meaning_extractor.py, lines 73-89 and 125): the
 selected song links are visited in order, and each one appends its three-line
 block to the output file. A song without a title, or a song page without a
 comments list, raises in the source. The run then stops, and only the blocks
 already appended stay in the file. Fetching a song page (URL joining plus the
 HTTP request) is the function parameter `pageOf`.
 */
module Extractor {
  import opened Wrappers
  import opened Strings
  import opened SongLinks
  import opened Records
  import opened Comment

  /** Why a run stopped early: the exception the source raises, and the link it was handling. */
  datatype Crash =
    | TitleMissing(url: string)         // `None.replace(...)` at line 83
    | NoCommentsList(url: string)       // `None.find(...)` at line 103

  /** What a run leaves behind: the text appended to the file, and the crash that ended it, if any. */
  datatype Run = Run(written: string, crash: Option<Crash>)

  /** The suffix the site puts on link titles. */
  const LyricsSuffix: string := " lyrics"

  /** Line 83: the song name is the title with every " lyrics" removed. */
  function SongName(title: string): (name: string)
  {
    ReplaceAll(title, LyricsSuffix, "")
  }

  /** A title without " lyrics" is the name as it stands. */
  lemma {:induction false} SongNameOfPlainTitle(title: string)
    requires !Contains(title, LyricsSuffix)
    ensures SongName(title) == title
  {
    ReplaceAbsent(title, LyricsSuffix, "");
  }

  /** The site's usual title, a song name followed by " lyrics", gives back the song name. */
  lemma {:induction false} SongNameStripsSuffix(base: string)
    requires !Contains(base, LyricsSuffix)
    ensures SongName(base + LyricsSuffix) == base
  {
    RemoveAppendedPattern(base, LyricsSuffix);
  }

  /**
   Every " lyrics" in a title is removed, wherever it stands: the name is the
   pieces of the title between its occurrences, put back together.
   */
  lemma {:induction false} SongNameRemovesEveryLyrics(title: string)
    ensures SongName(title) == Join("", Split(title, LyricsSuffix))
  {
    ReplaceIsJoinSplit(title, LyricsSuffix, "");
  }

  /** A " lyrics" inside a title is removed too, not only a trailing one. */
  lemma {:induction false} InnerLyricsIsRemoved()
    ensures SongName("a lyrics b") == "a b"
  {
    var t := "a lyrics b";
    assert t[0] == 'a' && LyricsSuffix[0] == ' ';
    assert !(LyricsSuffix <= t);
    assert t[1..] == LyricsSuffix + " b";
    assert t[1..][|LyricsSuffix|..] == " b";
    assert !Contains(" b", LyricsSuffix);
    ReplaceAbsent(" b", LyricsSuffix, "");
  }

  /** Lines 80-86 for one link: its record, or the crash it causes. */
  function RecordOf(link: SongLink, pageOf: string -> SongPage, textOf: string -> string): Result<SongRecord, Crash>
  {
    match link.title
    case None => Failure(TitleMissing(link.url))
    case Some(title) =>
      match HighestComment(pageOf(link.url), textOf)
      case Failure(_) => Failure(NoCommentsList(link.url))
      case Success(comment) => Success(SongRecord(SongName(title), comment))
  }

  /** `RecordOf` with the page fetcher and the markup-to-text step fixed. */
  function Recorder(pageOf: string -> SongPage, textOf: string -> string): SongLink -> Result<SongRecord, Crash>
  {
    link => RecordOf(link, pageOf, textOf)
  }

  /** How many links, from the front, produce a record before the first one that crashes. */
  function FirstFailure(items: seq<SongLink>, recordOf: SongLink -> Result<SongRecord, Crash>): (n: nat)
    ensures n <= |items|
    ensures forall k :: 0 <= k < n ==> recordOf(items[k]).Success?
    ensures n < |items| ==> recordOf(items[n]).Failure?
  {
    if |items| == 0 || recordOf(items[0]).Failure? then 0
    else 1 + FirstFailure(items[1..], recordOf)
  }

  /** The records of links that all produce one, in order. */
  function RecordsOf(items: seq<SongLink>, recordOf: SongLink -> Result<SongRecord, Crash>): (recs: seq<SongRecord>)
    requires forall k :: 0 <= k < |items| ==> recordOf(items[k]).Success?
    ensures |recs| == |items|
    ensures forall k :: 0 <= k < |items| ==> recs[k] == recordOf(items[k]).value
  {
    if |items| == 0 then []
    else [recordOf(items[0]).value] + RecordsOf(items[1..], recordOf)
  }

  /** Lines 79-89: each link in turn appends its block, and the first crash stops the run. */
  function WriteSongs(items: seq<SongLink>, recordOf: SongLink -> Result<SongRecord, Crash>): Run
    decreases |items|
  {
    if |items| == 0 then Run("", None)
    else
      match recordOf(items[0])
      case Failure(e) => Run("", Some(e))
      case Success(rec) =>
        var rest := WriteSongs(items[1..], recordOf);
        Run(Block(rec) + rest.written, rest.crash)
  }

  /**
   What a run leaves behind: the blocks of the links before the first crash, in
   order, and the crash of the first failing link, if there is one.
   */
  lemma {:induction false} WriteSongsWritesPrefix(items: seq<SongLink>, recordOf: SongLink -> Result<SongRecord, Crash>)
    ensures var n := FirstFailure(items, recordOf);
            var run := WriteSongs(items, recordOf);
            && run.written == Render(RecordsOf(items[..n], recordOf))
            && (run.crash.None? <==> n == |items|)
            && (n < |items| ==> run.crash == Some(recordOf(items[n]).error))
    decreases |items|
  {
    if |items| > 0 && recordOf(items[0]).Success? {
      WriteSongsWritesPrefix(items[1..], recordOf);
      var n := FirstFailure(items[1..], recordOf);
      assert items[..n + 1] == [items[0]] + items[1..][..n];
      assert items[..n + 1][1..] == items[1..][..n];
    } else if |items| > 0 {
      assert items[..0] == [];
    }
  }

  /** One step of the run from position `i`: the link there either crashes or appends its block. */
  lemma {:induction false} WriteSongsFrom(items: seq<SongLink>, i: nat, recordOf: SongLink -> Result<SongRecord, Crash>)
    requires i < |items|
    ensures recordOf(items[i]).Failure? ==>
              WriteSongs(items[i..], recordOf) == Run("", Some(recordOf(items[i]).error))
    ensures recordOf(items[i]).Success? ==>
              var rest := WriteSongs(items[i + 1..], recordOf);
              WriteSongs(items[i..], recordOf) == Run(Block(recordOf(items[i]).value) + rest.written, rest.crash)
  {
    assert items[i..][0] == items[i];
    assert items[i..][1..] == items[i + 1..];
  }

  /** The `for` loop of `extract` as written: append per song, stop at the first exception. */
  method WriteSongsLoop(items: seq<SongLink>, recordOf: SongLink -> Result<SongRecord, Crash>)
    returns (written: string, crash: Option<Crash>)
    ensures Run(written, crash) == WriteSongs(items, recordOf)
  {
    written := "";
    crash := None;
    var i := 0;
    while i < |items| && crash.None?
      invariant 0 <= i <= |items|
      invariant crash.None? ==>
                  WriteSongs(items, recordOf) ==
                  var rest := WriteSongs(items[i..], recordOf);
                  Run(written + rest.written, rest.crash)
      invariant crash.Some? ==> Run(written, crash) == WriteSongs(items, recordOf)
      decreases |items| - i, crash.None?
    {
      WriteSongsFrom(items, i, recordOf);
      match recordOf(items[i])
      case Failure(e) =>
        crash := Some(e);
      case Success(rec) =>
        written := written + Block(rec);
        i := i + 1;
    }
    if crash.None? {
      assert items[i..] == [];
      assert written + "" == written;
    }
  }

  /**
   `extract` on a band page: enumerate the song links, keep `items[:limit]`,
   and write them.
   */
  function Extract(anchors: seq<Anchor>, limit: Option<int>,
                   pageOf: string -> SongPage, textOf: string -> string): Run
  {
    WriteSongs(TakeLimit(CollectSongLinks(anchors), limit), Recorder(pageOf, textOf))
  }

  /** Every record a link produces is named after the link's title. */
  ghost predicate NamedAfterTitles(recordOf: SongLink -> Result<SongRecord, Crash>)
  {
    forall link :: recordOf(link).Success? ==>
      link.title.Some? && recordOf(link).value.name == SongName(link.title.value)
  }

  /** Line 83: a song's record carries its title with " lyrics" removed; without a title there is no record. */
  lemma {:induction false} RecorderNamesAfterTitles(pageOf: string -> SongPage, textOf: string -> string)
    ensures NamedAfterTitles(Recorder(pageOf, textOf))
  {
    forall link | Recorder(pageOf, textOf)(link).Success?
      ensures link.title.Some? && Recorder(pageOf, textOf)(link).value.name == SongName(link.title.value)
    {
      assert Recorder(pageOf, textOf)(link) == RecordOf(link, pageOf, textOf);
    }
  }

  /**
   Lines 80-86 for one link: a link without a title crashes at line 83, a page
   without a comments list crashes at line 103, and otherwise the record carries
   the page's highest comment.
   */
  lemma {:induction false} RecordOfOutcome(link: SongLink, pageOf: string -> SongPage, textOf: string -> string)
    ensures link.title.None? ==> RecordOf(link, pageOf, textOf) == Failure(TitleMissing(link.url))
    ensures link.title.Some? && pageOf(link.url).commentsList.None? ==>
              RecordOf(link, pageOf, textOf) == Failure(NoCommentsList(link.url))
    ensures link.title.Some? && pageOf(link.url).commentsList.Some? ==>
              && RecordOf(link, pageOf, textOf).Success?
              && RecordOf(link, pageOf, textOf).value.meaning == HighestComment(pageOf(link.url), textOf).value
  {
  }

  /**
   A link produces a record exactly when it has a title and its page has a
   comments list, and the record's comment is that page's highest comment.
   */
  ghost predicate CommentsFromPages(recordOf: SongLink -> Result<SongRecord, Crash>,
                                    pageOf: string -> SongPage, textOf: string -> string)
  {
    forall link ::
      && (recordOf(link).Success? <==> link.title.Some? && pageOf(link.url).commentsList.Some?)
      && (recordOf(link).Success? && pageOf(link.url).commentsList.Some? ==>
            recordOf(link).value.meaning == HighestComment(pageOf(link.url), textOf).value)
  }

  lemma {:induction false} RecorderTakesHighestComments(pageOf: string -> SongPage, textOf: string -> string)
    ensures CommentsFromPages(Recorder(pageOf, textOf), pageOf, textOf)
  {
    forall link
      ensures && (Recorder(pageOf, textOf)(link).Success? <==> link.title.Some? && pageOf(link.url).commentsList.Some?)
              && (Recorder(pageOf, textOf)(link).Success? && pageOf(link.url).commentsList.Some? ==>
                    Recorder(pageOf, textOf)(link).value.meaning == HighestComment(pageOf(link.url), textOf).value)
    {
      assert Recorder(pageOf, textOf)(link) == RecordOf(link, pageOf, textOf);
      RecordOfOutcome(link, pageOf, textOf);
    }
  }

  /**
   A run over links whose records come from their pages: every song written has
   a page with a comments list and carries its highest comment, and the run
   completes exactly when every link has a title and a page with a comments list.
   */
  lemma {:induction false} RunTakesHighestComments(items: seq<SongLink>, recordOf: SongLink -> Result<SongRecord, Crash>,
                                                   pageOf: string -> SongPage, textOf: string -> string)
    requires CommentsFromPages(recordOf, pageOf, textOf)
    ensures var n := FirstFailure(items, recordOf);
            var recs := RecordsOf(items[..n], recordOf);
            var run := WriteSongs(items, recordOf);
            && (forall k :: 0 <= k < |recs| ==>
                  pageOf(items[k].url).commentsList.Some? &&
                  recs[k].meaning == HighestComment(pageOf(items[k].url), textOf).value)
            && ((forall k :: 0 <= k < |items| ==> items[k].title.Some? && pageOf(items[k].url).commentsList.Some?)
                <==> run.crash.None?)
  {
    var n := FirstFailure(items, recordOf);
    var recs := RecordsOf(items[..n], recordOf);
    WriteSongsWritesPrefix(items, recordOf);
    forall k | 0 <= k < n
      ensures pageOf(items[k].url).commentsList.Some? &&
              recs[k].meaning == HighestComment(pageOf(items[k].url), textOf).value
    {
      assert items[..n][k] == items[k];
      assert recordOf(items[k]).Success?;
    }
    if n < |items| {
      assert recordOf(items[n]).Failure?;
      assert !(items[n].title.Some? && pageOf(items[n].url).commentsList.Some?);
    } else {
      forall k | 0 <= k < |items|
        ensures items[k].title.Some? && pageOf(items[k].url).commentsList.Some?
      {
        assert recordOf(items[k]).Success?;
      }
    }
  }

  /**
   A run over any links: the blocks of the links before the first crash, in
   order, each named after its link's title; a run that completes with
   single-line names and comments reads back as those records.
   */
  lemma {:induction false} RunOfItems(items: seq<SongLink>, recordOf: SongLink -> Result<SongRecord, Crash>)
    requires NamedAfterTitles(recordOf)
    ensures var n := FirstFailure(items, recordOf);
            var recs := RecordsOf(items[..n], recordOf);
            var run := WriteSongs(items, recordOf);
            && run.written == Render(recs)
            && |recs| <= |items|
            && (run.crash.None? <==> |recs| == |items|)
            && (|recs| < |items| ==> run.crash == Some(recordOf(items[|recs|]).error))
            && (forall k :: 0 <= k < |recs| ==> items[k].title.Some? && recs[k].name == SongName(items[k].title.value))
            && (run.crash.None? && SingleLineFields(recs) ==> ParseRecords(run.written) == Some(recs))
  {
    var n := FirstFailure(items, recordOf);
    var recs := RecordsOf(items[..n], recordOf);
    WriteSongsWritesPrefix(items, recordOf);
    assert |recs| == n;
    forall k | 0 <= k < n
      ensures items[k].title.Some? && recs[k].name == SongName(items[k].title.value)
    {
      assert items[..n][k] == items[k];
    }
    if SingleLineFields(recs) {
      ParseRender(recs);
    }
  }

  /**
   Writing the links that survive a limit: as for any links, and no more
   songs than the limit when one is given and is not negative.
   */
  lemma {:induction false} WriteSelected(links: seq<SongLink>, limit: Option<int>, recordOf: SongLink -> Result<SongRecord, Crash>)
    requires NamedAfterTitles(recordOf)
    ensures var items := TakeLimit(links, limit);
            var n := FirstFailure(items, recordOf);
            var recs := RecordsOf(items[..n], recordOf);
            var run := WriteSongs(items, recordOf);
            && run.written == Render(recs)
            && |recs| <= |items| <= |links|
            && (run.crash.None? <==> |recs| == |items|)
            && (|recs| < |items| ==> run.crash == Some(recordOf(items[|recs|]).error))
            && (limit.Some? && limit.value >= 0 ==> |recs| <= limit.value)
            && (run.crash.None? && limit.Some? && limit.value >= 0 ==> |recs| == Min(limit.value, |links|))
            && (run.crash.None? && limit.Some? && limit.value < 0 ==> |recs| == Max(0, |links| + limit.value))
            && (run.crash.None? && limit.None? ==> |recs| == |links|)
            && (forall k :: 0 <= k < |recs| ==> links[k].title.Some? && recs[k].name == SongName(links[k].title.value))
            && (run.crash.None? && SingleLineFields(recs) ==> ParseRecords(run.written) == Some(recs))
  {
    var items := TakeLimit(links, limit);
    RunOfItems(items, recordOf);
    assert forall k :: 0 <= k < |items| ==> items[k] == links[k];
  }

  /**
   `extract` writes the blocks of the distinct song links of the page, in the
   order they were found, up to the first crash: no more songs than the limit
   (when one is given and is not negative) and no more than the song links
   found, each named after its link's title and carrying its page's highest
   comment. The run completes exactly when every selected link has a title and
   a page with a comments list. A run that completes with
   single-line names and comments reads back as one three-line block per
   selected link, in order.
   */
  lemma {:induction false} ExtractWritesSelectedSongsInOrder(anchors: seq<Anchor>, limit: Option<int>,
                                          pageOf: string -> SongPage, textOf: string -> string)
    ensures var links := CollectSongLinks(anchors);
            var items := TakeLimit(links, limit);
            var n := FirstFailure(items, Recorder(pageOf, textOf));
            var recs := RecordsOf(items[..n], Recorder(pageOf, textOf));
            var run := Extract(anchors, limit, pageOf, textOf);
            && run.written == Render(recs)
            && |recs| <= |items| <= |links|
            && (run.crash.None? <==> |recs| == |items|)
            && (|recs| < |items| ==> run.crash == Some(Recorder(pageOf, textOf)(items[|recs|]).error))
            && (limit.Some? && limit.value >= 0 ==> |recs| <= limit.value)
            && (run.crash.None? && limit.Some? && limit.value >= 0 ==> |recs| == Min(limit.value, |links|))
            && (run.crash.None? && limit.Some? && limit.value < 0 ==> |recs| == Max(0, |links| + limit.value))
            && (run.crash.None? && limit.None? ==> |recs| == |links|)
            && (forall k :: 0 <= k < |recs| ==> links[k].title.Some? && recs[k].name == SongName(links[k].title.value))
            && (forall k :: 0 <= k < |recs| ==>
                  pageOf(items[k].url).commentsList.Some? &&
                  recs[k].meaning == HighestComment(pageOf(items[k].url), textOf).value)
            && ((forall k :: 0 <= k < |items| ==> items[k].title.Some? && pageOf(items[k].url).commentsList.Some?)
                <==> run.crash.None?)
            && (run.crash.None? && SingleLineFields(recs) ==> ParseRecords(run.written) == Some(recs))
  {
    var items := TakeLimit(CollectSongLinks(anchors), limit);
    RecorderNamesAfterTitles(pageOf, textOf);
    WriteSelected(CollectSongLinks(anchors), limit, Recorder(pageOf, textOf));
    RecorderTakesHighestComments(pageOf, textOf);
    RunTakesHighestComments(items, Recorder(pageOf, textOf), pageOf, textOf);
  }

  /** Line 125: the output file is named after the band, spaces turned into underscores. */
  function OutputFileName(bandName: string): (name: string)
    ensures |name| == |bandName| + |"_output.txt"|
    ensures forall i :: 0 <= i < |bandName| ==>
              name[i] == (if bandName[i] == ' ' then '_' else bandName[i])
    ensures name[|bandName|..] == "_output.txt"
    ensures ' ' !in name
  {
    ReplaceCharPointwise(bandName, ' ', '_');
    ReplaceAll(bandName, " ", "_") + "_" + "output" + ".txt"
  }

  /** Line 123: the band name is the command-line words joined with spaces. */
  function BandName(words: seq<string>): string
  {
    Join(" ", words)
  }

  /** For words without spaces, the file name is the words joined with underscores, then "_output.txt". */
  lemma {:induction false} OutputFileNameOfWords(words: seq<string>)
    requires forall k :: 0 <= k < |words| ==> ' ' !in words[k]
    ensures OutputFileName(BandName(words)) == Join("_", words) + "_output.txt"
  {
    UnderscoreJoin(words);
  }

  /** Replacing spaces in the space-joined words gives the underscore-joined words. */
  lemma {:induction false} UnderscoreJoin(words: seq<string>)
    requires forall k :: 0 <= k < |words| ==> ' ' !in words[k]
    ensures ReplaceAll(Join(" ", words), " ", "_") == Join("_", words)
    decreases |words|
  {
    if |words| == 1 {
      NoSpaceUnchanged(words[0]);
    } else if |words| > 1 {
      UnderscoreJoin(words[1..]);
      NoSpaceUnchanged(words[0]);
      ReplaceCharConcat(words[0], " ", ' ', '_');
      ReplaceCharConcat(words[0] + " ", Join(" ", words[1..]), ' ', '_');
      assert ReplaceAll(" ", " ", "_") == "_" by {
        ReplaceCharPointwise(" ", ' ', '_');
      }
    }
  }

  lemma {:induction false} NoSpaceUnchanged(w: string)
    requires ' ' !in w
    ensures ReplaceAll(w, " ", "_") == w
  {
    ReplaceCharPointwise(w, ' ', '_');
  }
}

=== FILE: records.dfy ===
/**
 Selection and formatting of the output (songs_meaning_extractor.py, lines 75-89).
 The dictionary entries are cut to `items[:number_of_songs]` with Python's
 slice semantics. Each song then becomes one three-line block: the name, the
 comment, and a line of thirty dashes. The file append is not modelled; the
 text that would be appended is.
 */
module Records {
  import opened Wrappers

  function Min(a: int, b: int): int { if a <= b then a else b }
  function Max(a: int, b: int): int { if a <= b then b else a }

  /**
   Python's `items[:limit]`: `None` keeps everything; a stop index below zero
   counts from the end; the result is clamped to the bounds of the list.
   */
  function TakeLimit<T>(items: seq<T>, limit: Option<int>): (r: seq<T>)
    ensures r <= items
    ensures limit.None? ==> r == items
    ensures limit.Some? && 0 <= limit.value ==> |r| == Min(limit.value, |items|)
    ensures limit.Some? && limit.value < 0 ==> |r| == Max(0, |items| + limit.value)
  {
    match limit
    case None => items
    case Some(n) =>
      var stop := if n < 0 then n + |items| else n;
      var stop := if stop < 0 then 0 else if stop > |items| then |items| else stop;
      items[..stop]
  }

  /** A limit at or beyond the number of entries keeps all of them, without error. */
  lemma {:induction false} LimitBeyondLength<T>(items: seq<T>, n: int)
    requires n >= |items|
    ensures TakeLimit(items, Some(n)) == items
  {
    assert items[..|items|] == items;
  }

  /** Two non-negative limits in a row act as the smaller one. */
  lemma {:induction false} LimitTwice<T>(items: seq<T>, a: nat, b: nat)
    ensures TakeLimit(TakeLimit(items, Some(a)), Some(b)) == TakeLimit(items, Some(Min(a, b)))
  {
  }

  /** A negative limit `-k` drops exactly the last `k` entries when there are that many. */
  lemma {:induction false} NegativeLimitDropsTail<T>(items: seq<T>, k: nat)
    requires 0 < k <= |items|
    ensures TakeLimit(items, Some(-(k as int))) + items[|items| - k..] == items
  {
  }

  /** What the extractor writes for one song: its name and its comment. */
  datatype SongRecord = SongRecord(name: string, meaning: string)

  /** `c * n` for a one-character string. */
  function Repeat(c: char, n: nat): (r: string)
    ensures |r| == n
    ensures forall i :: 0 <= i < n ==> r[i] == c
  {
    if n == 0 then "" else [c] + Repeat(c, n - 1)
  }

  /** The separator line body, `"-" * 30`. */
  const Separator: string := Repeat('-', 30)

  /** The three lines written per song. */
  function Block(rec: SongRecord): string
  {
    rec.name + "\n" + rec.meaning + "\n" + Separator + "\n"
  }

  /** Everything appended for a sequence of songs, in order. */
  function Render(recs: seq<SongRecord>): string
  {
    if |recs| == 0 then "" else Block(recs[0]) + Render(recs[1..])
  }

  lemma {:induction false} RenderConcat(a: seq<SongRecord>, b: seq<SongRecord>)
    ensures Render(a + b) == Render(a) + Render(b)
    decreases |a|
  {
    if |a| > 0 {
      assert (a + b)[1..] == a[1..] + b;
      RenderConcat(a[1..], b);
    } else {
      assert a + b == b;
    }
  }

  /** The first line of `s` and the text after its line feed; `None` when `s` has no line feed. */
  function ReadLine(s: string): (r: Option<(string, string)>)
    ensures r.None? <==> '\n' !in s
    ensures r.Some? ==> '\n' !in r.value.0 && s == r.value.0 + "\n" + r.value.1
    decreases |s|
  {
    if |s| == 0 then None
    else if s[0] == '\n' then Some(("", s[1..]))
    else
      match ReadLine(s[1..])
      case None => None
      case Some((line, rest)) => Some(([s[0]] + line, rest))
  }

  /** A line without line feeds is read back exactly. */
  lemma {:induction false} ReadLineOf(line: string, rest: string)
    requires '\n' !in line
    ensures ReadLine(line + "\n" + rest) == Some((line, rest))
    decreases |line|
  {
    var s := line + "\n" + rest;
    if |line| == 0 {
      assert s == "\n" + rest;
    } else {
      assert s[0] == line[0];
      assert s[1..] == line[1..] + "\n" + rest;
      ReadLineOf(line[1..], rest);
      assert [line[0]] + line[1..] == line;
    }
  }

  /** Reads an output file's text back into records, one three-line block at a time. */
  function ParseRecords(text: string): Option<seq<SongRecord>>
    decreases |text|
  {
    if |text| == 0 then Some([])
    else
      match ReadLine(text)
      case None => None
      case Some((name, t1)) =>
        match ReadLine(t1)
        case None => None
        case Some((meaning, t2)) =>
          match ReadLine(t2)
          case None => None
          case Some((sep, t3)) =>
            if sep != Separator then None
            else
              match ParseRecords(t3)
              case None => None
              case Some(rest) => Some([SongRecord(name, meaning)] + rest)
  }

  /** No line feed inside any name or comment. */
  ghost predicate SingleLineFields(recs: seq<SongRecord>)
  {
    forall k :: 0 <= k < |recs| ==> '\n' !in recs[k].name && '\n' !in recs[k].meaning
  }

  /** One block in front of any text is read as one record in front of what that text reads as. */
  lemma {:induction false} ParseBlock(r: SongRecord, rest: string)
    requires '\n' !in r.name && '\n' !in r.meaning
    ensures ParseRecords(Block(r) + rest) ==
            match ParseRecords(rest)
            case None => None
            case Some(recs) => Some([r] + recs)
  {
    var t2 := Separator + "\n" + rest;
    var t1 := r.meaning + "\n" + t2;
    assert Block(r) + rest == r.name + "\n" + t1;
    ReadLineOf(r.name, t1);
    ReadLineOf(r.meaning, t2);
    assert '\n' !in Separator;
    ReadLineOf(Separator, rest);
  }

  /**
   When names and comments are single lines, the written text is exactly three
   lines per song, and reading it back gives the songs in the order written.
   */
  lemma {:induction false} ParseRender(recs: seq<SongRecord>)
    requires SingleLineFields(recs)
    ensures ParseRecords(Render(recs)) == Some(recs)
    decreases |recs|
  {
    if |recs| > 0 {
      SingleLineTail(recs);
      ParseRender(recs[1..]);
      assert Render(recs) == Block(recs[0]) + Render(recs[1..]);
      ParseBlock(recs[0], Render(recs[1..]));
      assert [recs[0]] + recs[1..] == recs;
    }
  }

  /** The first record and the rest of a single-line sequence are single-line too. */
  lemma {:induction false} SingleLineTail(recs: seq<SongRecord>)
    requires |recs| > 0 && SingleLineFields(recs)
    ensures '\n' !in recs[0].name && '\n' !in recs[0].meaning
    ensures SingleLineFields(recs[1..])
  {
    forall k | 0 <= k < |recs[1..]|
      ensures '\n' !in recs[1..][k].name && '\n' !in recs[1..][k].meaning
    {
      assert recs[1..][k] == recs[k + 1];
    }
  }
}

=== FILE: song_links.dfy ===
/**
 Song-link enumeration of a band page (songs_meaning_extractor.py, lines 54-65).
 Every anchor with an `href` is visited in document order. An href that contains
 the song-page path marker is recorded in an insertion-ordered dictionary, and
 only the first title seen for an href is kept. The HTML parser that produces
 the anchors is not modelled; the anchors are the input.
 */
module SongLinks {
  import opened Wrappers
  import opened Strings

  /** An `<a href=...>` element of the band page; `title` is its `title` attribute, if it has one. */
  datatype Anchor = Anchor(href: string, title: Option<string>)

  /** One entry of the dictionary `links_songs`: an href and the title recorded for it. */
  datatype SongLink = SongLink(url: string, title: Option<string>)

  /** The path segment that marks a link to a song page. */
  const SongPathMarker: string := "/songs/view/"

  predicate IsSongHref(href: string)
  {
    Contains(href, SongPathMarker)
  }

  /** `url in links_songs`. */
  predicate HasUrl(links: seq<SongLink>, url: string)
  {
    exists k :: 0 <= k < |links| && links[k].url == url
  }

  /** One iteration of the loop: record a song href that is not yet a key, with this anchor's title. */
  function Visit(links: seq<SongLink>, a: Anchor): seq<SongLink>
  {
    if IsSongHref(a.href) && !HasUrl(links, a.href) then links + [SongLink(a.href, a.title)]
    else links
  }

  /** Position of the first anchor whose href is `url`, or `|anchors|` when there is none. */
  function FirstIndexOf(anchors: seq<Anchor>, url: string): (i: nat)
    ensures i <= |anchors|
    ensures i < |anchors| ==> anchors[i].href == url
    ensures forall j :: 0 <= j < i ==> anchors[j].href != url
  {
    if |anchors| == 0 then 0
    else if anchors[0].href == url then 0
    else 1 + FirstIndexOf(anchors[1..], url)
  }

  /** Any index meeting the three conditions of `FirstIndexOf` is the one it returns. */
  lemma {:induction false} FirstIndexUnique(anchors: seq<Anchor>, url: string, i: nat)
    requires i <= |anchors|
    requires i < |anchors| ==> anchors[i].href == url
    requires forall j :: 0 <= j < i ==> anchors[j].href != url
    ensures FirstIndexOf(anchors, url) == i
  {
  }

  /** Appending an anchor leaves every first occurrence in the prefix where it was. */
  lemma {:induction false} FirstIndexAppend(anchors: seq<Anchor>, a: Anchor, url: string)
    ensures FirstIndexOf(anchors + [a], url) ==
            if FirstIndexOf(anchors, url) < |anchors| then FirstIndexOf(anchors, url)
            else if a.href == url then |anchors|
            else |anchors| + 1
  {
    var xs := anchors + [a];
    var f := FirstIndexOf(anchors, url);
    if f < |anchors| {
      FirstIndexUnique(xs, url, f);
    } else if a.href == url {
      FirstIndexUnique(xs, url, |anchors|);
    } else {
      FirstIndexUnique(xs, url, |anchors| + 1);
    }
  }

  /** Every key of the dictionary names a song page. */
  ghost predicate OnlySongUrls(links: seq<SongLink>)
  {
    forall k :: 0 <= k < |links| ==> IsSongHref(links[k].url)
  }

  /** Every anchor that names a song page has its href among the keys. */
  ghost predicate AllSongUrls(anchors: seq<Anchor>, links: seq<SongLink>)
  {
    forall i :: 0 <= i < |anchors| && IsSongHref(anchors[i].href) ==> HasUrl(links, anchors[i].href)
  }

  /** Every key comes from an anchor and carries the title of the first anchor with that href. */
  ghost predicate FirstTitles(anchors: seq<Anchor>, links: seq<SongLink>)
  {
    forall k :: 0 <= k < |links| ==>
      FirstIndexOf(anchors, links[k].url) < |anchors| &&
      links[k].title == anchors[FirstIndexOf(anchors, links[k].url)].title
  }

  /** Keys appear in the order of their first occurrence in the document (so no key repeats). */
  ghost predicate FirstSeenOrder(anchors: seq<Anchor>, links: seq<SongLink>)
  {
    forall k1, k2 :: 0 <= k1 < k2 < |links| ==>
      FirstIndexOf(anchors, links[k1].url) < FirstIndexOf(anchors, links[k2].url)
  }

  /** One visit keeps the keys song hrefs, their titles the first ones, and their order the order first seen. */
  lemma {:induction false} VisitKeepsFirsts(anchors: seq<Anchor>, a: Anchor, links: seq<SongLink>)
    requires OnlySongUrls(links) && AllSongUrls(anchors, links)
    requires FirstTitles(anchors, links) && FirstSeenOrder(anchors, links)
    ensures var xs := anchors + [a];
            var links' := Visit(links, a);
            OnlySongUrls(links') && FirstTitles(xs, links') && FirstSeenOrder(xs, links')
  {
    var xs := anchors + [a];
    forall k | 0 <= k < |links|
      ensures FirstIndexOf(xs, links[k].url) == FirstIndexOf(anchors, links[k].url) < |anchors|
    {
      FirstIndexAppend(anchors, a, links[k].url);
    }
    if Visit(links, a) != links {
      VisitAppends(anchors, a, links);
    }
  }

  /** A visit that records a new key: the new entry is first seen at the visited anchor, after all the others. */
  lemma {:induction false} VisitAppends(anchors: seq<Anchor>, a: Anchor, links: seq<SongLink>)
    requires OnlySongUrls(links) && AllSongUrls(anchors, links)
    requires FirstTitles(anchors, links) && FirstSeenOrder(anchors, links)
    requires forall k :: 0 <= k < |links| ==>
               FirstIndexOf(anchors + [a], links[k].url) == FirstIndexOf(anchors, links[k].url) < |anchors|
    requires Visit(links, a) != links
    ensures var xs := anchors + [a];
            var links' := Visit(links, a);
            OnlySongUrls(links') && FirstTitles(xs, links') && FirstSeenOrder(xs, links')
  {
    var xs := anchors + [a];
    var links' := links + [SongLink(a.href, a.title)];
    assert Visit(links, a) == links';
    var n := |links|;
    assert IsSongHref(a.href) && !HasUrl(links, a.href);
    assert forall i :: 0 <= i < |anchors| ==> anchors[i].href != a.href;
    FirstIndexAppend(anchors, a, a.href);
    assert xs[|anchors|] == a;
    forall k | 0 <= k < |links'|
      ensures IsSongHref(links'[k].url)
      ensures FirstIndexOf(xs, links'[k].url) < |xs|
      ensures links'[k].title == xs[FirstIndexOf(xs, links'[k].url)].title
    {
      if k < n {
        assert links'[k] == links[k];
        assert xs[FirstIndexOf(anchors, links[k].url)] == anchors[FirstIndexOf(anchors, links[k].url)];
      }
    }
    forall k1, k2 | 0 <= k1 < k2 < |links'|
      ensures FirstIndexOf(xs, links'[k1].url) < FirstIndexOf(xs, links'[k2].url)
    {
      assert links'[k1] == links[k1];
      if k2 < n {
        assert links'[k2] == links[k2];
      }
    }
  }

  /** One visit keeps every song href seen so far among the keys. */
  lemma {:induction false} VisitKeepsAll(anchors: seq<Anchor>, a: Anchor, links: seq<SongLink>)
    requires AllSongUrls(anchors, links)
    ensures AllSongUrls(anchors + [a], Visit(links, a))
  {
    var xs := anchors + [a];
    var links' := Visit(links, a);
    forall i | 0 <= i < |xs| && IsSongHref(xs[i].href)
      ensures HasUrl(links', xs[i].href)
    {
      if i < |anchors| {
        assert xs[i] == anchors[i];
        var k :| 0 <= k < |links| && links[k].url == anchors[i].href;
        assert links'[k] == links[k];
      } else if links' != links {
        assert links'[|links|].url == xs[i].href;
      }
    }
  }

  /**
   The dictionary the loop builds from the anchors, as an insertion-ordered
   sequence of entries: exactly the song hrefs, each once, in order of first
   occurrence, each with the title of its first anchor.
   */
  function CollectSongLinks(anchors: seq<Anchor>): (links: seq<SongLink>)
    ensures OnlySongUrls(links)
    ensures AllSongUrls(anchors, links)
    ensures FirstTitles(anchors, links)
    ensures FirstSeenOrder(anchors, links)
    decreases |anchors|
  {
    if |anchors| == 0 then []
    else
      var n := |anchors| - 1;
      var prev := CollectSongLinks(anchors[..n]);
      VisitKeepsFirsts(anchors[..n], anchors[n], prev);
      VisitKeepsAll(anchors[..n], anchors[n], prev);
      assert anchors[..n] + [anchors[n]] == anchors;
      Visit(prev, anchors[n])
  }

  /** `_get_band_songs_list`'s loop over the anchors, which builds the same dictionary. */
  method BandSongsList(anchors: seq<Anchor>) returns (links: seq<SongLink>)
    ensures links == CollectSongLinks(anchors)
  {
    links := [];
    var i := 0;
    while i < |anchors|
      invariant i <= |anchors|
      invariant links == CollectSongLinks(anchors[..i])
    {
      var url := anchors[i].href;
      if IsSongHref(url) {
        if !HasUrl(links, url) {
          links := links + [SongLink(url, anchors[i].title)];
        }
      }
      assert anchors[..i + 1][..i] == anchors[..i];
      i := i + 1;
    }
    assert anchors[..i] == anchors;
  }

  /** Keys are pairwise distinct. */
  lemma {:induction false} UrlsDistinct(anchors: seq<Anchor>)
    ensures var links := CollectSongLinks(anchors);
            forall k1, k2 :: 0 <= k1 < k2 < |links| ==> links[k1].url != links[k2].url
  {
  }

  /** The dictionary is empty exactly when no anchor names a song page. */
  lemma {:induction false} EmptyIffNoSongAnchors(anchors: seq<Anchor>)
    ensures CollectSongLinks(anchors) == [] <==>
            forall i :: 0 <= i < |anchors| ==> !IsSongHref(anchors[i].href)
  {
    var links := CollectSongLinks(anchors);
    if links != [] {
      var i := FirstIndexOf(anchors, links[0].url);
      assert IsSongHref(anchors[i].href);
    }
  }

  /** An anchor whose href already occurred earlier in the document changes nothing. */
  lemma {:induction false} LaterDuplicateIgnored(anchors: seq<Anchor>, a: Anchor)
    requires exists j :: 0 <= j < |anchors| && anchors[j].href == a.href
    ensures CollectSongLinks(anchors + [a]) == CollectSongLinks(anchors)
  {
    var xs := anchors + [a];
    assert xs[..|anchors|] == anchors;
    var links := CollectSongLinks(anchors);
    if IsSongHref(a.href) {
      var j :| 0 <= j < |anchors| && anchors[j].href == a.href;
      assert HasUrl(links, anchors[j].href);
    }
  }

  /** Two anchors to the same song page with different titles: the first title is the one kept. */
  lemma {:induction false} DuplicateKeepsFirstTitle(url: string, first: Option<string>, second: Option<string>)
    requires IsSongHref(url)
    ensures CollectSongLinks([Anchor(url, first), Anchor(url, second)]) == [SongLink(url, first)]
  {
    var xs := [Anchor(url, first), Anchor(url, second)];
    assert xs[..1] == [Anchor(url, first)];
    assert [Anchor(url, first)][..0] == [];
    var one := [SongLink(url, first)];
    assert CollectSongLinks(xs[..1]) == one;
    assert one[0].url == url;
    assert HasUrl(one, url);
  }
}

=== FILE: strings.dfy ===
/**
 The Python string operations the scraper relies on: substring search (`in`),
 `str.split` with a separator, `str.join`, `str.replace` and `str.lstrip()`.
 Strings are `seq<char>`; a `char` is a Unicode scalar value, as a Python
 code point is for every character a web page can carry.
 */
module Strings {
  import opened Wrappers

  /** `pat` occurs in `s` starting at index `i`. */
  predicate OccursAt(s: string, pat: string, i: nat)
  {
    i + |pat| <= |s| && s[i..i + |pat|] == pat
  }

  /** Python's `pat in s`. */
  predicate Contains(s: string, pat: string)
  {
    exists i: nat | i <= |s| :: OccursAt(s, pat, i)
  }

  /** Index of the first occurrence of `pat` in `s` at or after `i` (Python's `s.find(pat, i)`). */
  function FindFrom(s: string, pat: string, i: nat): (r: Option<nat>)
    requires i <= |s|
    ensures r.Some? ==> i <= r.value && OccursAt(s, pat, r.value)
    ensures r.Some? ==> forall j: nat :: i <= j < r.value ==> !OccursAt(s, pat, j)
    ensures r.None? ==> forall j: nat :: i <= j ==> !OccursAt(s, pat, j)
    decreases |s| - i
  {
    if OccursAt(s, pat, i) then Some(i)
    else if i == |s| then None
    else FindFrom(s, pat, i + 1)
  }

  /** The first occurrence of `pat` in `s`, as Python's `s.find(pat)`. */
  function Find(s: string, pat: string): (r: Option<nat>)
    ensures r.None? <==> !Contains(s, pat)
    ensures r.Some? ==> OccursAt(s, pat, r.value)
    ensures r.Some? ==> forall j: nat :: j < r.value ==> !OccursAt(s, pat, j)
  {
    var r := FindFrom(s, pat, 0);
    if r.Some? then assert OccursAt(s, pat, r.value); r else r
  }

  /**
   Python's `s.split(pat)` for a non-empty `pat`, as a left-to-right scan: an
   occurrence at the scan position ends the current piece, any other character
   joins it.
   */
  function Split(s: string, pat: string): (parts: seq<string>)
    requires |pat| > 0
    ensures |parts| >= 1
    decreases |s|
  {
    if |s| == 0 then [""]
    else if pat <= s then [""] + Split(s[|pat|..], pat)
    else
      var p := Split(s[1..], pat);
      [[s[0]] + p[0]] + p[1..]
  }

  /** Python's `sep.join(parts)`. */
  function Join(sep: string, parts: seq<string>): string
  {
    if |parts| == 0 then ""
    else if |parts| == 1 then parts[0]
    else parts[0] + sep + Join(sep, parts[1..])
  }

  lemma {:induction false} JoinCons(sep: string, head: string, tail: seq<string>)
    requires |tail| >= 1
    ensures Join(sep, [head] + tail) == head + sep + Join(sep, tail)
  {
    assert ([head] + tail)[1..] == tail;
  }

  /** Growing the first piece grows the joined string by the same prefix. */
  lemma {:induction false} JoinGrowFirst(sep: string, c: char, p: seq<string>)
    requires |p| >= 1
    ensures Join(sep, [[c] + p[0]] + p[1..]) == [c] + Join(sep, p)
  {
    if |p| > 1 {
      JoinCons(sep, [c] + p[0], p[1..]);
      JoinCons(sep, p[0], p[1..]);
      assert p == [p[0]] + p[1..];
    }
  }

  lemma {:induction false} SlicesOfTail(s: string, q: nat, n: nat)
    requires 0 < |s| && q + 1 + n <= |s|
    ensures s[q + 1 + n..] == s[1..][q + n..]
    ensures s[..q + 1] == [s[0]] + s[1..][..q]
  {
  }

  /** An occurrence at `j + 1` in `s` is an occurrence at `j` in `s[1..]`. */
  lemma {:induction false} OccursShift(s: string, pat: string, j: nat)
    requires |s| > 0
    ensures OccursAt(s, pat, j + 1) <==> OccursAt(s[1..], pat, j)
  {
    if j + 1 + |pat| <= |s| {
      assert s[j + 1..j + 1 + |pat|] == s[1..][j..j + |pat|];
    }
  }

  /** With its first occurrence at `q`, `s` splits into `s[..q]` and the split of what follows the separator. */
  lemma {:induction false} SplitAtFirst(s: string, pat: string, q: nat)
    requires |pat| > 0 && OccursAt(s, pat, q)
    requires forall j: nat :: j < q ==> !OccursAt(s, pat, j)
    ensures Split(s, pat) == [s[..q]] + Split(s[q + |pat|..], pat)
    decreases q
  {
    if q == 0 {
      assert pat <= s;
      assert s[..0] == "";
    } else {
      var tail := s[1..];
      assert !OccursAt(s, pat, 0);
      assert !(pat <= s);
      OccursShift(s, pat, q - 1);
      forall j: nat | j < q - 1
        ensures !OccursAt(tail, pat, j)
      {
        OccursShift(s, pat, j);
      }
      SplitAtFirst(tail, pat, q - 1);
      var p := Split(tail, pat);
      var rest := tail[q - 1 + |pat|..];
      assert p[0] == tail[..q - 1] && p[1..] == Split(rest, pat);
      SlicesOfTail(s, q - 1, |pat|);
    }
  }

  /** Without an occurrence, `s` is its own only piece. */
  lemma {:induction false} SplitWithout(s: string, pat: string)
    requires |pat| > 0
    requires forall j: nat :: !OccursAt(s, pat, j)
    ensures Split(s, pat) == [s]
    decreases |s|
  {
    if |s| > 0 {
      assert !OccursAt(s, pat, 0);
      forall j: nat
        ensures !OccursAt(s[1..], pat, j)
      {
        OccursShift(s, pat, j);
      }
      SplitWithout(s[1..], pat);
      assert s == [s[0]] + s[1..];
    }
  }

  /**
   The scan splits at the first occurrence of the separator and continues after
   it, the way Python's documentation describes `str.split`; with no occurrence
   the string is its only piece.
   */
  lemma {:induction false} SplitAtFirstOccurrence(s: string, pat: string)
    requires |pat| > 0
    ensures Find(s, pat).None? ==> Split(s, pat) == [s]
    ensures Find(s, pat).Some? ==>
              var q := Find(s, pat).value;
              Split(s, pat) == [s[..q]] + Split(s[q + |pat|..], pat)
  {
    match Find(s, pat)
    case None =>
      SplitWithout(s, pat);
    case Some(q) =>
      SplitAtFirst(s, pat, q);
  }

  /** Joining the pieces of a split with the separator gives back the string. */
  lemma {:induction false} JoinSplit(s: string, pat: string)
    requires |pat| > 0
    ensures Join(pat, Split(s, pat)) == s
    decreases |s|
  {
    if |s| > 0 {
      if pat <= s {
        var rest := s[|pat|..];
        JoinSplit(rest, pat);
        assert Split(s, pat) == [""] + Split(rest, pat);
        JoinCons(pat, "", Split(rest, pat));
        assert s == pat + rest;
      } else {
        var p := Split(s[1..], pat);
        JoinSplit(s[1..], pat);
        assert Split(s, pat) == [[s[0]] + p[0]] + p[1..];
        JoinGrowFirst(pat, s[0], p);
        assert s == [s[0]] + s[1..];
      }
    }
  }

  /** No piece of a split contains the separator. */
  lemma {:induction false} SplitPartsFree(s: string, pat: string)
    requires |pat| > 0
    ensures forall k :: 0 <= k < |Split(s, pat)| ==> !Contains(Split(s, pat)[k], pat)
    decreases |s|
  {
    SplitAtFirstOccurrence(s, pat);
    match Find(s, pat)
    case None =>
    case Some(q) =>
      var rest := s[q + |pat|..];
      SplitPartsFree(rest, pat);
      forall j: nat | OccursAt(s[..q], pat, j)
        ensures false
      {
        assert s[..q][j..j + |pat|] == s[j..j + |pat|];
        assert OccursAt(s, pat, j);
      }
      var parts := Split(s, pat);
      forall k | 0 <= k < |parts|
        ensures !Contains(parts[k], pat)
      {
        if k > 0 {
          assert parts[k] == Split(rest, pat)[k - 1];
        }
      }
  }

  /**
   Python's `s.replace(pat, rep)` for a non-empty `pat`: a left-to-right scan that
   replaces an occurrence of `pat` at the scan position and otherwise copies one character.
   */
  function ReplaceAll(s: string, pat: string, rep: string): string
    requires |pat| > 0
    decreases |s|
  {
    if |s| == 0 then ""
    else if pat <= s then rep + ReplaceAll(s[|pat|..], pat, rep)
    else [s[0]] + ReplaceAll(s[1..], pat, rep)
  }

  /** `s.replace(pat, rep) == rep.join(s.split(pat))`, the identity Python guarantees. */
  lemma {:induction false} ReplaceIsJoinSplit(s: string, pat: string, rep: string)
    requires |pat| > 0
    ensures ReplaceAll(s, pat, rep) == Join(rep, Split(s, pat))
    decreases |s|
  {
    if |s| > 0 {
      if pat <= s {
        ReplaceIsJoinSplit(s[|pat|..], pat, rep);
        JoinCons(rep, "", Split(s[|pat|..], pat));
      } else {
        ReplaceIsJoinSplit(s[1..], pat, rep);
        JoinGrowFirst(rep, s[0], Split(s[1..], pat));
      }
    }
  }

  /** A string without the pattern is left unchanged by `replace`. */
  lemma {:induction false} ReplaceAbsent(s: string, pat: string, rep: string)
    requires |pat| > 0
    requires !Contains(s, pat)
    ensures ReplaceAll(s, pat, rep) == s
  {
    ReplaceIsJoinSplit(s, pat, rep);
    SplitAtFirstOccurrence(s, pat);
  }

  /**
   Replacing a one-character pattern by a one-character string maps each
   character independently and keeps the length.
   */
  lemma {:induction false} ReplaceCharPointwise(s: string, from: char, to: char)
    ensures |ReplaceAll(s, [from], [to])| == |s|
    ensures forall i :: 0 <= i < |s| ==>
              ReplaceAll(s, [from], [to])[i] == (if s[i] == from then to else s[i])
    decreases |s|
  {
    if |s| > 0 {
      ReplaceCharPointwise(s[1..], from, to);
      var r := ReplaceAll(s, [from], [to]);
      assert [from] <= s <==> s[0] == from;
      assert r == [if s[0] == from then to else s[0]] + ReplaceAll(s[1..], [from], [to]);
    }
  }

  /** A one-character replacement distributes over concatenation. */
  lemma {:induction false} ReplaceCharConcat(a: string, b: string, from: char, to: char)
    ensures ReplaceAll(a + b, [from], [to]) == ReplaceAll(a, [from], [to]) + ReplaceAll(b, [from], [to])
  {
    ReplaceCharPointwise(a + b, from, to);
    ReplaceCharPointwise(a, from, to);
    ReplaceCharPointwise(b, from, to);
  }

  /**
   If the first character of `pat` appears nowhere else in `pat`, and `base`
   does not contain `pat`, then removing `pat` from `base + pat` gives `base`:
   the only occurrence is the appended one.
   */
  lemma {:induction false} RemoveAppendedPattern(base: string, pat: string)
    requires |pat| > 0
    requires forall k :: 0 < k < |pat| ==> pat[k] != pat[0]
    requires !Contains(base, pat)
    ensures ReplaceAll(base + pat, pat, "") == base
  {
    var s := base + pat;
    assert OccursAt(s, pat, |base|) by { assert s[|base|..|base| + |pat|] == pat; }
    forall j: nat | j < |base|
      ensures !OccursAt(s, pat, j)
    {
      if j + |pat| <= |base| {
        assert s[j..j + |pat|] == base[j..j + |pat|];
        assert !OccursAt(base, pat, j);
      } else {
        var k := |base| - j;
        assert s[j..j + |pat|][k] == s[|base|] == pat[0] != pat[k];
      }
    }
    assert Find(s, pat) == Some(|base|);
    assert s[..|base|] == base;
    assert s[|base| + |pat|..] == "";
    SplitAtFirstOccurrence(s, pat);
    assert Split(s, pat) == [base, ""];
    ReplaceIsJoinSplit(s, pat, "");
    JoinCons("", base, [""]);
  }

  /** Python's `str.isspace()` for one character: the characters `lstrip()` drops by default. */
  predicate IsSpace(c: char)
  {
    || ('\U{9}' <= c <= '\U{D}')
    || ('\U{1C}' <= c <= '\U{1F}')
    || c == ' '
    || c == '\U{85}'
    || c == '\U{A0}'
    || c == '\U{1680}'
    || ('\U{2000}' <= c <= '\U{200A}')
    || c == '\U{2028}'
    || c == '\U{2029}'
    || c == '\U{202F}'
    || c == '\U{205F}'
    || c == '\U{3000}'
  }

  /**
   `t` is what is left of `s` once its leading whitespace is dropped: a suffix
   of `s`, everything before it whitespace, and not itself starting with
   whitespace.
   */
  ghost predicate StripsTo(s: string, t: string)
  {
    && |t| <= |s| && t == s[|s| - |t|..]
    && (forall i :: 0 <= i < |s| - |t| ==> IsSpace(s[i]))
    && (|t| > 0 ==> !IsSpace(t[0]))
  }

  /** Python's `s.lstrip()`: the suffix left after dropping leading whitespace. */
  function LStrip(s: string): (r: string)
    ensures |r| <= |s| && r == s[|s| - |r|..]
    ensures forall i :: 0 <= i < |s| - |r| ==> IsSpace(s[i])
    ensures |r| > 0 ==> !IsSpace(r[0])
    decreases |s|
  {
    if |s| > 0 && IsSpace(s[0]) then LStrip(s[1..]) else s
  }

  /** Any split of `s` into leading whitespace and a part not starting with whitespace is the one `lstrip` makes. */
  lemma {:induction false} LStripUnique(ws: string, t: string)
    requires forall i :: 0 <= i < |ws| ==> IsSpace(ws[i])
    requires |t| > 0 ==> !IsSpace(t[0])
    ensures LStrip(ws + t) == t
    decreases |ws|
  {
    if |ws| > 0 {
      assert (ws + t)[1..] == ws[1..] + t;
      LStripUnique(ws[1..], t);
    } else {
      assert ws + t == t;
    }
  }

  /** `lstrip` gives the one string that `s` strips to. */
  lemma {:induction false} LStripIsStripsTo(s: string, t: string)
    ensures StripsTo(s, t) <==> t == LStrip(s)
  {
    if StripsTo(s, t) {
      var ws := s[..|s| - |t|];
      assert ws + t == s;
      LStripUnique(ws, t);
    }
  }

  /** Stripping twice strips nothing more. */
  lemma {:induction false} LStripIdempotent(s: string)
    ensures LStrip(LStrip(s)) == LStrip(s)
  {
    LStripUnique([], LStrip(s));
    assert [] + LStrip(s) == LStrip(s);
  }
}

=== FILE: wrappers.dfy ===
/** `Option` and `Result`, shared by the other modules. */
module Wrappers {

  /** A value that may be absent; Python's `None` where the source allows it. */
  datatype Option<+T> = None | Some(value: T)

  /** Either a value or the error that ended the computation. */
  datatype Result<+T, +E> = Success(value: T) | Failure(error: E)
}
